=== FILE: README.md ===
# Spotify authorization relay — a Dafny model

A model of the core of a small Go server (`auth.go`). The server runs the OAuth 2.0
authorization code flow against Spotify for a browser application that cannot hold a
client secret. It has three GET endpoints:

- `/api/login` mints an anti-forgery state token from a 62-character alphabet. It stores the
  token in the `spotify_auth_state` cookie and redirects (302) to Spotify's authorize
  endpoint. The redirect carries the authorization request of section 4.1.1 of RFC 6749.
- `/callback` checks the returned `state` against the cookie. This check is the CSRF
  defence of section 10.12 of RFC 6749. On a match it clears the cookie and exchanges the
  code at the token endpoint (section 4.1.3 of RFC 6749). It then redirects (303) to the
  application with `access_token` and `refresh_token` in the URL fragment.
- `/api/refresh_token` exchanges a refresh token (section 6 of RFC 6749) and writes
  `{access_token:<token>}` back.

Every other method gets a 403 redirect to `http://localhost:8081`.

Each handler is a pure function. Its inputs are the configuration (client id and secret),
the request (method, decoded query pairs, cookie pairs) and what `client.Do` would return
for the token request (`TransportError` with a nil response, `RedirectsExhausted` with a
response whose body is already closed, or a status plus a body). Its output is the trace of effects
the Go code performs, in order: `SetCookie`, `SetHeader`, `Post` (the token request),
`Redirect`, `Write`, and `Panic` for a runtime abort. Crash paths are modelled as written.

The state generator takes the values of `rand.Intn(100)` as a given sequence of draws. The
index `floor(k/100 * 62)` is computed as `(k*62)/100`, and a lemma proves this equals the
exact real-valued floor. The query strings, form bodies and fragments the handlers
concatenate are read back with a plain reader (`Url.ParseQuery`: split on `&`, cut at the
first `=`). The reader's round-trip lemma with `Url.EncodeQuery` states what each built
string carries.

Files: `wrappers.dfy` (Option), `url.dfy` (reader/writer), `http.dfy` (constants, request,
upstream, effects), `state_token.dfy`, `login.dfy`, `callback.dfy`, `refresh.dfy`,
`relay.dfy` (the method gate shared by all endpoints), `findings.dfy`.

The model follows the code as written, including three paths where it crashes or carries on
after an error:
- A missing state cookie is dereferenced (a crash). It is not treated as an empty stored
  state.
- A failed code exchange does not stop after the `invalid_token` redirect.
- A transport error on refresh leaves a nil response, and the deferred close crashes on it.

Corrected handlers for these three cases are in `findings.dfy`.

## Model

| member | source | states |
|---|---|---|
| StateToken.RandomIndex | auth.go:214-227 | every draw k in [0,100) selects an index in [0,62), so `possible[randomIndex]` is in bounds |
| StateToken.RandomIndexIsFloor | auth.go:214-226 | the integer index equals floor((k/100)·62) computed exactly over the reals |
| StateToken.PossibleIsAlphanumeric | auth.go:22 | the alphabet has 62 characters, each a letter or a digit |
| StateToken.Token | auth.go:221-231 | the token of n draws has exactly n characters, one per draw |
| StateToken.TokenChar | auth.go:224-229 | character i of the token is the alphabet entry the i-th draw selects |
| StateToken.TokenInAlphabet | auth.go:221-231 | every character of a token is a character of the alphabet |
| StateToken.GenerateRandomString | auth.go:221-232 | the loop returns exactly max(length, 0) characters, equal to the reference `Token` of the draws it consumed |
| StateToken.TokenIsPlain | auth.go:221-231 | every token is alphanumeric, so it contains none of `&`, `=`, `#` |
| Http.QueryGet | auth.go:92-93 | a present key reads as the value of its first occurrence in the query; an absent key reads as "" |
| Http.CookieValue | auth.go:95-98 | the lookup finds a cookie of that name exactly when the request carries one, and returns the value of the first one |
| Http.TokenPost | auth.go:118-123 | the token request (built the same way for refresh at auth.go:175-180) goes to the token endpoint with the form content type, `Accept: application/json` and the given form; its Basic credential splits at its first `:` back into the client id and secret whenever the id has no `:` (section 2 of RFC 7617) |
| Login.Login | auth.go:50-83 | login never sends a token request, makes no `w.Write` call and cannot crash; it sets a cookie exactly when the method is GET, and then the state cookie is the first and only cookie and the 302 to the authorize URL is the last effect |
| Login.HandleLogin | auth.go:50-82 | a GET login answers as `Login` with the state minted from exactly the first 16 draws; any other method gets only the 403 redirect |
| Login.LoginAuthorizationRequest | auth.go:73-75 | for every client id and state the 302 redirect goes to the authorize endpoint with the built query after the first `?`; that query reads back as exactly response_type=code, client_id, scope, redirect_uri, state, in that order |
| Login.LoginBindsState | auth.go:56-75 | a GET login sets exactly one cookie, `spotify_auth_state` with path `/`; its value is the `state` read from the redirect URL |
| Login.MintedStateBinds | auth.go:56-75 | for the state the handler mints from its draws, the state cookie comes first and its value is the `state` read back from the redirect URL, for any client id without `&` |
| Callback.ReadTokens | auth.go:137-151 | reading the reply ends in the 303 redirect to the application with exactly those two tokens in the fragment when the body is a JSON object with string `access_token` and `refresh_token`; otherwise it panics, on a bad body with the unmarshal error |
| Callback.AfterExchange | auth.go:128-151 | the invalid_token redirect comes first exactly when the request did not give a 200 response |
| Callback.Exchange | auth.go:106-151 | the matched-state path clears the cookie first, sends exactly one token request, second, and a panic only ends it |
| Callback.Callback | auth.go:85-161 | a token request is sent only on GET with a non-empty `state` equal to the stored cookie; a panic only ends a trace |
| Callback.StateMismatchRejected | auth.go:100-104 | with the state cookie present, an empty or different `state` gets only the state_mismatch redirect (500): no cookie change, no token request, for any upstream reply |
| Callback.MatchedStateExchanges | auth.go:106-126 | on a match the cookie is cleared (empty, Max-Age -1) first, then the code exchange is sent; its form reads back as code, redirect_uri, grant_type=authorization_code |
| Callback.CodeFormReadsBack | auth.go:116 | the code-exchange form reads back as the three parameters of the code grant |
| Callback.TokensFragmentReadsBack | auth.go:148 | the success URL splits at `#` into the origin plus `/` and a fragment that reads back as access_token=A, refresh_token=R |
| Callback.CallbackSuccess | auth.go:146-151 | a matching state and a 200 reply with string tokens A and R give exactly clear-cookie, request, then the 303 redirect to the tokens URL, with no crash; its fragment reads back as exactly A and R |
| Callback.CallbackUpstreamFailure | auth.go:128-133 | on a match, every outcome other than a 200 response calls the invalid_token redirect (500) right after the request; unless the reply carries both tokens, a panic follows (`Findings.CallbackContinuesAfterFailure`) and the browser receives nothing |
| Refresh.ReadAccessBody | auth.go:200 | a body the reader accepts is exactly `{access_token:` + token + `}` |
| Refresh.AccessBodyReadsBack | auth.go:200 | the written body reads back as the access token |
| Refresh.ReadAccess | auth.go:189-200 | the 200 path writes exactly `{access_token:` + token + `}` when the reply is a JSON object with a string `access_token`; otherwise it panics, on a bad body with the unmarshal error |
| Refresh.Refresh | auth.go:163-212 | refresh writes a body only after a 200 reply, never sets a cookie, and a panic only ends a trace |
| Refresh.RefreshRequest | auth.go:172-183 | a GET refresh sends exactly one token request, first; its form reads back as grant_type=refresh_token and the caller's refresh token |
| Refresh.RefreshSuccess | auth.go:185-202 | a 200 reply with a string access token writes exactly one body, from which the token reads back |
| Refresh.RefreshFailureIsSilent | auth.go:185-203 | any reply other than a 200 response writes no body and no redirect |
| Relay.MethodGate | auth.go:77-82 | a non-GET request to login, callback (auth.go:155-160) or refresh (auth.go:205-210) gets exactly one 403 redirect to http://localhost:8081, with no cookie and no token request |
| Findings.CallbackWithoutCookieCrashes | auth.go:95-100 | a GET callback without the state cookie panics on the nil cookie before any check |
| Findings.CallbackContinuesAfterFailure | auth.go:128-151 | after a transport error the invalid_token redirect is followed by a nil-response panic; after a stopped redirect chain, by an unmarshal panic on the empty body; after a non-200 reply carrying tokens, by a second, 303 redirect |
| Findings.RefreshTransportErrorCrashes | auth.go:183-203 | after a transport error the refresh panics on the nil response |
| Findings.CorrectedCallback | auth.go:85-161 | the corrected callback keeps the CSRF guard and never dereferences a nil cookie or nil response |
| Findings.CorrectedCallbackIntended | auth.go:95-135 | without a cookie: the state_mismatch redirect; a failed exchange ends with the invalid_token redirect alone; with a cookie and a 200 reply: same trace as the code as written |
| Findings.CorrectedRefresh | auth.go:163-212 | the corrected refresh writes only after a 200 reply and never dereferences a nil response |
| Findings.CorrectedRefreshIntended | auth.go:183-203 | a transport error leaves only the token request; every other outcome of the request is answered as by the code as written |

## Left out

- Process startup is not modelled: `main`, `godotenv`, reading `PORT`/`CLIENT_ID`/`CLIENT_SECRET` from the environment, route registration, port binding and logging (auth.go:25-48, the `fmt.Println` calls). The credentials become the `Config` parameter.
- HTTP mechanics are abstracted into trace effects: cookie serialisation, `http.Redirect` and `enableCORS` writing headers. On a GET without a Content-Type, `http.Redirect` also writes a short HTML body (`<a href="...">Found</a>.`); a `Redirect` effect stands for that body too, and `Write` stands only for the handler's own `w.Write`. When a handler redirects twice, net/http ignores the second redirect entirely: the first call has already fixed the status and the Location header, and the second writes no body. The trace records both calls.
- The base64 encoding in the Basic Authorization header is not modelled (section 4 of RFC 4648, used as in section 2 of RFC 7617). The header is identified by the `client_id:client_secret` text it encodes.
- JSON decoding is abstracted. A reply body is either text `json.Unmarshal` rejects or an object's fields (string or other). `ioutil.ReadAll` errors are ignored by the code. The only one modelled is the read of the already-closed body after a stopped redirect chain (`RedirectsExhausted`): it yields no bytes, which `json.Unmarshal` rejects.
- Randomness is not modelled: seeding by the clock, the `float64` arithmetic, and uniformity or unpredictability of tokens. Draws are given integers in [0,100). For those, `(k*62)/100` equals the float floor, because the exact product is an integer only at k = 0 and k = 50, and is otherwise at least 0.02 from an integer.
- Cookie expiry is recorded as "365 * 24 hours ahead", not as an absolute time.
- Go's query and cookie parsing is not modelled: percent-decoding, `;` rejection, invalid cookie values. A request carries already-decoded name/value pairs, and `Url.ParseQuery` does no unescaping.
- Concurrency between requests is left out: the handlers share no state.
- Repeating a refresh is not modelled. Each trace is a function of its inputs, so the same inputs give the same request. Whether the provider returns a new access token each time is provider behaviour.
- Login.LoginAuthorizationRequest: the read-back of the query is stated only for a client id and state without `&`, because the code concatenates without escaping. A minted state never contains `&` (`StateToken.TokenIsPlain`). The redirect itself is stated for every input.
- Login.LoginBindsState: only for a client id and a state without `&`, for the same reason. For a minted state, `StateToken.TokenIsPlain` discharges the condition on the state (`Login.MintedStateBinds`).
- Login.MintedStateBinds: only for a client id without `&`, for the same reason.
- Login.LoginBindsState and Login.MintedStateBinds: the `state` is read back with the plain reader, which cuts at the first `?` and does not stop at `#`. For a client id containing `#`, a URL parser would put `state` in the fragment instead. The binding is therefore stated for this reader, not for a full URL parser.
- What the browser receives is not modelled. Traces record the calls a handler makes. When a trace ends in `Panic`, net/http drops the buffered status, headers and body and closes the connection, so the browser gets an empty reply even if a redirect call comes before the panic.
- Http.TokenPost: the credential read-back is stated only for a client id without `:`. The code does not check this, and section 2 of RFC 7617 forbids `:` in the user-id.
- Callback.MatchedStateExchanges: the form read-back is stated only for a code without `&`.
- Callback.CodeFormReadsBack: only for a code without `&`.
- Callback.TokensFragmentReadsBack: only for tokens without `&`.
- Callback.CallbackSuccess: the fragment read-back is stated only for tokens without `&`. The exact trace is stated for every pair of tokens.
- Refresh.RefreshRequest: the form read-back is stated only for a refresh token without `&`.

## Findings

| source | as written | input that shows it | evidently intended | confidence | as-written member | corrected member |
|---|---|---|---|---|---|---|
| auth.go:95-100 | the error from `r.Cookie` is only logged, then `cookie.Value` is read from a nil cookie | a GET /callback with no `spotify_auth_state` cookie | treat the stored state as empty, so the callback is rejected as a state mismatch | high; not executed | Findings.CallbackWithoutCookieCrashes | Findings.CorrectedCallback |
| auth.go:128-135 | after the invalid_token redirect there is no `return`. The handler evaluates `resp.Body` of a nil response, or reads a non-200 body as a success | the token endpoint unreachable (transport error), or a 400 reply | stop after the invalid_token redirect | high; not executed | Findings.CallbackContinuesAfterFailure | Findings.CorrectedCallbackIntended |
| auth.go:183-203 | `defer resp.Body.Close()` runs after the failed request too, and after a transport error `resp` is nil | a GET /api/refresh_token while the token endpoint is unreachable | close the body only when a response exists; write nothing on failure | high; not executed | Findings.RefreshTransportErrorCrashes | Findings.CorrectedRefreshIntended |

=== FILE: callback.dfy ===
/**
  The callback exchanger: check the returned `state` against the state
  cookie (the CSRF defence of section 10.12 of RFC 6749), clear the
  cookie, exchange the authorization code at the token endpoint
  (section 4.1.3 of RFC 6749), and redirect the browser to the
  application with both tokens in the URL fragment.

  The trace follows the code as written, crash paths included: a missing
  cookie is dereferenced, a failed exchange is answered and then carries
  on, and missing token fields fail their type assertions.
*/
module Callback {
  import opened Wrappers
  import opened Http
  import Url

  const MismatchUrl: string := AppOrigin + "#error=state_mismatch"
  const InvalidTokenUrl: string := AppOrigin + "/#error=invalid_token"

  /** The cookie that clears the state: empty value, Max-Age -1 (delete now). */
  const ClearedCookie: Cookie := Cookie(StateKey, "", "", MaxAge(-1))

  /** The form body of the code exchange, concatenated without escaping. */
  function CodeForm(code: string): string {
    "code=" + code + "&redirect_uri=" + RedirectUri + "&grant_type=authorization_code"
  }

  function CodeParams(code: string): seq<(string, string)> {
    [("code", code), ("redirect_uri", RedirectUri), ("grant_type", "authorization_code")]
  }

  /** The fragment that hands both tokens to the application. */
  function TokensFragment(access: string, refresh: string): string {
    "access_token=" + access + "&refresh_token=" + refresh
  }

  /** The application's root page, with both tokens handed over in its fragment. */
  function TokensUrl(access: string, refresh: string): string {
    AppOrigin + "/#" + TokensFragment(access, refresh)
  }

  /**
    Reading the body of the provider's reply: unmarshal it, assert both
    fields are strings, and redirect (303) with the tokens.
  */
  function ReadTokens(body: Body): (trace: seq<Effect>)
    ensures |trace| == 1
    ensures trace[0].Redirect? <==> (&& body.Object?
                                     && StringField(body.fields, "access_token").Some?
                                     && StringField(body.fields, "refresh_token").Some?)
    ensures trace[0].Redirect? ==>
              trace[0] == Redirect(TokensUrl(body.fields["access_token"].s, body.fields["refresh_token"].s), StatusSeeOther)
    ensures !trace[0].Redirect? ==> trace[0].Panic?
    ensures body.NotJson? ==> trace[0] == Panic(BadJson)
  {
    match body
    case NotJson => [Panic(BadJson)]
    case Object(fields) =>
      match StringField(fields, "access_token")
      case None => [Panic(NotAString("access_token"))]
      case Some(access) =>
        match StringField(fields, "refresh_token")
        case None => [Panic(NotAString("refresh_token"))]
        case Some(refresh) => [Redirect(TokensUrl(access, refresh), StatusSeeOther)]
  }

  /**
    What follows the token request. A failure is answered with the
    invalid_token redirect but the handler does not return: on a transport
    error it then reads Body of the nil response; when the redirect policy
    stopped it reads the closed body, gets no bytes and fails to unmarshal
    them; on another status it goes on to read the body as if it had
    succeeded.
  */
  function AfterExchange(upstream: Upstream): (trace: seq<Effect>)
    ensures |trace| >= 1
    ensures trace[0] == Redirect(InvalidTokenUrl, StatusInternalServerError)
            <==> !(upstream.Response? && upstream.status == StatusOK)
    ensures !Exchanges(trace) && PanicLast(trace)
  {
    match upstream
    case TransportError =>
      [Redirect(InvalidTokenUrl, StatusInternalServerError), Panic(NilResponse)]
    case RedirectsExhausted =>
      [Redirect(InvalidTokenUrl, StatusInternalServerError), Panic(BadJson)]
    case Response(status, body) =>
      if status != StatusOK then
        [Redirect(InvalidTokenUrl, StatusInternalServerError)] + ReadTokens(body)
      else
        ReadTokens(body)
  }

  /** handleCallback, given the reply the token endpoint would send to its request. */
  function Callback(config: Config, req: Request, upstream: Upstream): (trace: seq<Effect>)
    ensures Exchanges(trace) ==>
              && req.verb == "GET"
              && QueryGet(req, "state") != ""
              && CookieValue(req, StateKey) == Some(QueryGet(req, "state"))
    ensures PanicLast(trace)
  {
    if req.verb != "GET" then [Forbidden]
    else
      var code := QueryGet(req, "code");
      var state := QueryGet(req, "state");
      match CookieValue(req, StateKey)
      case None => [Panic(NilCookie)]
      case Some(storedState) =>
        if state == "" || state != storedState then
          [Redirect(MismatchUrl, StatusInternalServerError)]
        else
          Exchange(config, code, upstream)
  }

  /** The matched-state path: clear the cookie, send the code exchange, handle the reply. */
  function Exchange(config: Config, code: string, upstream: Upstream): (trace: seq<Effect>)
    ensures |trace| >= 3 && trace[0] == SetCookie(ClearedCookie)
    ensures trace[1].Post? && forall i :: 0 <= i < |trace| && trace[i].Post? ==> i == 1
    ensures PanicLast(trace)
  {
    var after := AfterExchange(upstream);
    var trace := [SetCookie(ClearedCookie), Post(TokenPost(config, CodeForm(code)))] + after;
    assert forall i :: 2 <= i < |trace| ==> trace[i] == after[i - 2];
    trace
  }

  /**
    A callback whose `state` is empty or differs from the stored cookie is
    answered with the state_mismatch redirect alone: the cookie is kept and
    no token request is made, whatever the provider would have answered.
  */
  lemma StateMismatchRejected(config: Config, req: Request, upstream: Upstream, stored: string)
    requires req.verb == "GET"
    requires CookieValue(req, StateKey) == Some(stored)
    requires QueryGet(req, "state") == "" || QueryGet(req, "state") != stored
    ensures Callback(config, req, upstream) == [Redirect(MismatchUrl, StatusInternalServerError)]
    ensures !SetsCookie(Callback(config, req, upstream)) && !Exchanges(Callback(config, req, upstream))
  {
  }

  /**
    With a matching state, the first effect clears the state cookie and the
    second sends the code exchange, whose form reads back as the three
    parameters of section 4.1.3 of RFC 6749 when the code has no '&'.
  */
  lemma {:induction false} MatchedStateExchanges(config: Config, req: Request, upstream: Upstream)
    requires req.verb == "GET"
    requires QueryGet(req, "state") != ""
    requires CookieValue(req, StateKey) == Some(QueryGet(req, "state"))
    ensures var trace := Callback(config, req, upstream);
      && |trace| >= 3
      && trace[0] == SetCookie(ClearedCookie)
      && trace[1] == Post(TokenPost(config, CodeForm(QueryGet(req, "code"))))
      && trace[2..] == AfterExchange(upstream)
    ensures '&' !in QueryGet(req, "code") ==>
              Url.ParseQuery(CodeForm(QueryGet(req, "code"))) == CodeParams(QueryGet(req, "code"))
  {
    var code := QueryGet(req, "code");
    var trace := Callback(config, req, upstream);
    assert trace == Exchange(config, code, upstream);
    assert trace[2..] == AfterExchange(upstream);
    if '&' !in code {
      CodeFormReadsBack(code);
    }
  }

  lemma CodeFormReadsBack(code: string)
    requires '&' !in code
    ensures Url.ParseQuery(CodeForm(code)) == CodeParams(code)
  {
    CodeFormEncodes(code);
    assert Url.PlainPair(CodeParams(code)[1]) by {
      assert '&' !in RedirectUri;
    }
    assert Url.Plain(CodeParams(code));
    Url.ParseEncodeQuery(CodeParams(code));
  }

  lemma CodeFormEncodes(code: string)
    ensures CodeForm(code) == Url.EncodeQuery(CodeParams(code))
  {
    Url.EncodeThree("code", code, "redirect_uri", RedirectUri, "grant_type", "authorization_code");
    assert "code=" == "code" + "=";
    assert "&redirect_uri=" == "&" + "redirect_uri" + "=";
    assert "&grant_type=authorization_code" == "&grant_type=" + "authorization_code";
    assert "&grant_type=" == "&" + "grant_type" + "=";
  }

  /** The tokens fragment reads back as the two tokens, when neither token has an '&'. */
  lemma TokensFragmentReadsBack(access: string, refresh: string)
    requires '&' !in access && '&' !in refresh
    ensures Url.Cut(TokensUrl(access, refresh), '#') == (AppOrigin + "/", TokensFragment(access, refresh))
    ensures Url.ParseQuery(TokensFragment(access, refresh)) == [("access_token", access), ("refresh_token", refresh)]
  {
    TokensUrlCut(access, refresh);
    var ps := [("access_token", access), ("refresh_token", refresh)];
    TokensFragmentEncodes(access, refresh);
    assert Url.Plain(ps);
    Url.ParseEncodeQuery(ps);
  }

  lemma TokensUrlCut(access: string, refresh: string)
    ensures Url.Cut(TokensUrl(access, refresh), '#') == (AppOrigin + "/", TokensFragment(access, refresh))
  {
    var base, fragment := AppOrigin + "/", TokensFragment(access, refresh);
    assert TokensUrl(access, refresh) == base + ['#'] + fragment by {
      assert "/#" == "/" + ['#'];
    }
    assert '#' !in base;
    Url.CutAtFirst(base, '#', fragment);
  }

  lemma TokensFragmentEncodes(access: string, refresh: string)
    ensures TokensFragment(access, refresh) == Url.EncodeQuery([("access_token", access), ("refresh_token", refresh)])
  {
    Url.EncodeTwo("access_token", access, "refresh_token", refresh);
    assert "access_token=" == "access_token" + "=";
    assert "&refresh_token=" == "&" + "refresh_token" + "=";
  }

  /**
    A matching state and a 200 reply with both tokens as strings end in one
    303 redirect to the application, whose fragment carries exactly
    access_token=A and refresh_token=R.
  */
  lemma {:induction false} CallbackSuccess(config: Config, req: Request, access: string, refresh: string,
                                           fields: map<string, JsonValue>)
    requires req.verb == "GET"
    requires QueryGet(req, "state") != ""
    requires CookieValue(req, StateKey) == Some(QueryGet(req, "state"))
    requires "access_token" in fields && fields["access_token"] == JString(access)
    requires "refresh_token" in fields && fields["refresh_token"] == JString(refresh)
    ensures var trace := Callback(config, req, Response(StatusOK, Object(fields)));
      && trace == [SetCookie(ClearedCookie),
                   Post(TokenPost(config, CodeForm(QueryGet(req, "code")))),
                   Redirect(TokensUrl(access, refresh), StatusSeeOther)]
      && !Crashes(trace)
    ensures '&' !in access && '&' !in refresh ==>
              Url.ParseQuery(Url.Cut(TokensUrl(access, refresh), '#').1) == [("access_token", access), ("refresh_token", refresh)]
  {
    var trace := Callback(config, req, Response(StatusOK, Object(fields)));
    ExchangeSucceeds(config, QueryGet(req, "code"), access, refresh, fields);
    assert trace == Exchange(config, QueryGet(req, "code"), Response(StatusOK, Object(fields)));
    assert !trace[0].Panic? && !trace[1].Panic? && !trace[2].Panic?;
    if '&' !in access && '&' !in refresh {
      TokensFragmentReadsBack(access, refresh);
    }
  }

  /** The matched-state path after a 200 reply carrying both tokens as strings. */
  lemma ExchangeSucceeds(config: Config, code: string, access: string, refresh: string,
                         fields: map<string, JsonValue>)
    requires "access_token" in fields && fields["access_token"] == JString(access)
    requires "refresh_token" in fields && fields["refresh_token"] == JString(refresh)
    ensures Exchange(config, code, Response(StatusOK, Object(fields)))
         == [SetCookie(ClearedCookie), Post(TokenPost(config, CodeForm(code))),
             Redirect(TokensUrl(access, refresh), StatusSeeOther)]
  {
  }

  /**
    With a matching state, a transport error or a status other than 200 is
    answered with the invalid_token redirect right after the token request;
    what the handler does next is the rest of the trace.
  */
  lemma {:induction false} CallbackUpstreamFailure(config: Config, req: Request, upstream: Upstream)
    requires req.verb == "GET"
    requires QueryGet(req, "state") != ""
    requires CookieValue(req, StateKey) == Some(QueryGet(req, "state"))
    requires !(upstream.Response? && upstream.status == StatusOK)
    ensures Callback(config, req, upstream)[2] == Redirect(InvalidTokenUrl, StatusInternalServerError)
  {
    MatchedStateExchanges(config, req, upstream);
  }
}

=== FILE: findings.dfy ===
/**
  Three crash paths of the handlers as written, each exhibited on the
  model of the code, beside a corrected handler with the intended
  behaviour proved:

  1. /callback without the state cookie reads Value of a nil cookie.
     Intended: treat the stored state as empty, so the mismatch path
     rejects the callback.
  2. /callback does not return after answering a failed exchange with the
     invalid_token redirect: after a transport error it reads Body of the
     nil response; after another status it reads the body as a success.
     Intended: stop after the invalid_token redirect.
  3. /api/refresh_token defers closing the body of the nil response a
     transport error leaves. Intended: close only a response that exists,
     so a failure writes nothing and does not crash.
*/
module Findings {
  import opened Wrappers
  import opened Http
  import Callback
  import Refresh

  /** The callback without the state cookie crashes before comparing anything. */
  lemma CallbackWithoutCookieCrashes(config: Config, req: Request, upstream: Upstream)
    requires req.verb == "GET"
    requires forall i :: 0 <= i < |req.cookies| ==> req.cookies[i].0 != StateKey
    ensures Callback.Callback(config, req, upstream) == [Panic(NilCookie)]
  {
  }

  /**
    After a failed exchange the callback answers invalid_token and goes on:
    a transport error then crashes on the nil response, a stopped redirect
    chain crashes on the empty body it reads, and a non-200 reply whose body
    holds the tokens gets a second, success redirect.
  */
  lemma {:induction false} CallbackContinuesAfterFailure(config: Config, req: Request, fields: map<string, JsonValue>,
                                                         status: int)
    requires req.verb == "GET"
    requires QueryGet(req, "state") != ""
    requires CookieValue(req, StateKey) == Some(QueryGet(req, "state"))
    requires status != StatusOK
    requires Callback.ReadTokens(Object(fields))[0].Redirect?
    ensures Callback.Callback(config, req, TransportError)[2..]
         == [Redirect(Callback.InvalidTokenUrl, StatusInternalServerError), Panic(NilResponse)]
    ensures Callback.Callback(config, req, RedirectsExhausted)[2..]
         == [Redirect(Callback.InvalidTokenUrl, StatusInternalServerError), Panic(BadJson)]
    ensures var trace := Callback.Callback(config, req, Response(status, Object(fields)));
      && trace[2] == Redirect(Callback.InvalidTokenUrl, StatusInternalServerError)
      && trace[3].Redirect? && trace[3].status == StatusSeeOther
  {
    Callback.MatchedStateExchanges(config, req, TransportError);
    Callback.MatchedStateExchanges(config, req, RedirectsExhausted);
    Callback.MatchedStateExchanges(config, req, Response(status, Object(fields)));
  }

  /** After a transport error the refresh crashes on the nil response. */
  lemma RefreshTransportErrorCrashes(config: Config, req: Request)
    requires req.verb == "GET"
    ensures Refresh.Refresh(config, req, TransportError)[1] == Panic(NilResponse)
  {
  }

  /** handleCallback with the missing cookie read as "" and a return after the invalid_token redirect. */
  function CorrectedCallback(config: Config, req: Request, upstream: Upstream): (trace: seq<Effect>)
    ensures Exchanges(trace) ==>
              && req.verb == "GET"
              && QueryGet(req, "state") != ""
              && CookieValue(req, StateKey) == Some(QueryGet(req, "state"))
    ensures NoNilDereference(trace)
  {
    if req.verb != "GET" then [Forbidden]
    else
      var code := QueryGet(req, "code");
      var state := QueryGet(req, "state");
      var storedState := CookieValue(req, StateKey).GetOr("");
      if state == "" || state != storedState then
        [Redirect(Callback.MismatchUrl, StatusInternalServerError)]
      else
        assert CookieValue(req, StateKey) == Some(state);
        CorrectedExchange(config, code, upstream)
  }

  /** The matched-state path of the corrected callback: clear, send the code exchange, handle the reply. */
  function CorrectedExchange(config: Config, code: string, upstream: Upstream): (trace: seq<Effect>)
    ensures |trace| >= 3 && trace[0] == SetCookie(Callback.ClearedCookie)
    ensures trace[1].Post? && forall i :: 0 <= i < |trace| && trace[i].Post? ==> i == 1
    ensures NoNilDereference(trace)
  {
    var after := CorrectedAfterExchange(upstream);
    var trace := [SetCookie(Callback.ClearedCookie), Post(TokenPost(config, Callback.CodeForm(code)))] + after;
    assert forall i :: 2 <= i < |trace| ==> trace[i] == after[i - 2];
    trace
  }

  /** What follows the token request once the handler returns after a failure. */
  function CorrectedAfterExchange(upstream: Upstream): (trace: seq<Effect>)
    ensures !Exchanges(trace)
    ensures NoNilDereference(trace)
  {
    if upstream.Response? && upstream.status == StatusOK then
      Callback.ReadTokens(upstream.body)
    else
      [Redirect(Callback.InvalidTokenUrl, StatusInternalServerError)]
  }

  /**
    The corrected callback rejects a missing cookie as a state mismatch,
    ends every failed exchange with the invalid_token redirect alone, and
    otherwise answers exactly as the handler as written.
  */
  lemma {:induction false} CorrectedCallbackIntended(config: Config, req: Request, upstream: Upstream)
    requires req.verb == "GET"
    ensures CookieValue(req, StateKey).None? ==>
              CorrectedCallback(config, req, upstream) == [Redirect(Callback.MismatchUrl, StatusInternalServerError)]
    ensures && QueryGet(req, "state") != ""
            && CookieValue(req, StateKey) == Some(QueryGet(req, "state"))
            && !(upstream.Response? && upstream.status == StatusOK)
            ==> var trace := CorrectedCallback(config, req, upstream);
                |trace| == 3 && trace[2] == Redirect(Callback.InvalidTokenUrl, StatusInternalServerError)
    ensures CookieValue(req, StateKey).Some? && (upstream.Response? && upstream.status == StatusOK) ==>
              CorrectedCallback(config, req, upstream) == Callback.Callback(config, req, upstream)
  {
    if CookieValue(req, StateKey).None? {
      assert QueryGet(req, "state") != "" ==> QueryGet(req, "state") != CookieValue(req, StateKey).GetOr("");
    }
  }

  /** handleRefresh with the body closed only when a response exists. */
  function CorrectedRefresh(config: Config, req: Request, upstream: Upstream): (trace: seq<Effect>)
    ensures Writes(trace) ==> upstream.Response? && upstream.status == StatusOK
    ensures NoNilDereference(trace)
  {
    if req.verb != "GET" then [Forbidden]
    else
      var request := Post(TokenPost(config, Refresh.RefreshForm(QueryGet(req, "refresh_token"))));
      if upstream.Response? && upstream.status == StatusOK then
        [request] + Refresh.ReadAccess(upstream.body)
      else
        [request]
  }

  /**
    The corrected refresh answers a transport error with nothing beyond the
    token request, and every other outcome of the request exactly as the
    handler as written.
  */
  lemma CorrectedRefreshIntended(config: Config, req: Request, upstream: Upstream)
    requires req.verb == "GET"
    ensures upstream.TransportError? ==>
              CorrectedRefresh(config, req, upstream) == [Post(TokenPost(config, Refresh.RefreshForm(QueryGet(req, "refresh_token"))))]
    ensures !upstream.TransportError? ==> CorrectedRefresh(config, req, upstream) == Refresh.Refresh(config, req, upstream)
  {
  }
}

=== FILE: http.dfy ===
/**
  The relay's view of HTTP: the configuration it reads, the request it
  receives, the reply it gets from the provider's token endpoint, and the
  effects a handler performs on its response writer.

  A handler is modelled as a pure function from its inputs to the trace of
  effects it performs, in order. `Panic` ends a trace: the Go runtime
  aborts the handler there (a nil dereference, a failed type assertion or
  an explicit `panic`), and the server recovers it for that request only.

  The effects are the calls the handler makes, not what the browser
  receives. A trace that ends in `Panic` delivers no response: net/http
  drops the buffered status, headers and body and closes the connection.
  The effects before the `Panic` are calls the handler made.
*/
module Http {
  import opened Wrappers
  import Url

  /** Fixed values declared at the top of the relay, and the addresses it talks to. */
  const StateKey: string := "spotify_auth_state"
  /**
    The requested capabilities: the single string of the five scope names
    user-read-private, user-read-email, user-read-playback-state,
    user-modify-playback-state and playlist-modify-public, each separated by
    one space. It is built from its words so that facts about its characters
    stay cheap to prove; the value is the same.
  */
  const Scope: string :=
    "user-read-private" + " " + "user-read-email" + " " + "user-read-playback-state" + " "
    + "user-modify-playback-state" + " " + "playlist-modify-public"
  const RedirectUri: string := "http://localhost:8080/callback"
  const AppOrigin: string := "http://localhost:8081"
  const AuthorizeEndpoint: string := "https://accounts.spotify.com/authorize"
  const TokenEndpoint: string := "https://accounts.spotify.com/api/token"

  /** Status codes the handlers use. */
  const StatusOK: int := 200
  const StatusFound: int := 302
  const StatusSeeOther: int := 303
  const StatusForbidden: int := 403
  const StatusInternalServerError: int := 500

  /** Provider credentials, read from the environment by every handler. */
  datatype Config = Config(clientId: string, clientSecret: string)

  /**
    An inbound request: its method (verb), its decoded query parameters in order,
    and the name/value pairs of its Cookie header in order.
  */
  datatype Request = Request(verb: string, query: seq<(string, string)>, cookies: seq<(string, string)>)

  /** The first value of a query parameter, or "" when it is absent (url.Values.Get). */
  function QueryGet(req: Request, key: string): (v: string)
    ensures forall i :: (&& 0 <= i < |req.query| && req.query[i].0 == key
                         && (forall j :: 0 <= j < i ==> req.query[j].0 != key)) ==> v == req.query[i].1
    ensures v != "" ==> exists i :: 0 <= i < |req.query| && req.query[i] == (key, v)
    ensures (forall i :: 0 <= i < |req.query| ==> req.query[i].0 != key) ==> v == ""
  {
    Url.Lookup(req.query, key).GetOr("")
  }

  /** The first cookie of that name, or None (Request.Cookie returning ErrNoCookie and a nil cookie). */
  function CookieValue(req: Request, name: string): (v: Option<string>)
    ensures v.Some? ==> exists i :: 0 <= i < |req.cookies| && req.cookies[i] == (name, v.value)
    ensures v.None? <==> forall i :: 0 <= i < |req.cookies| ==> req.cookies[i].0 != name
    ensures forall i :: (&& 0 <= i < |req.cookies| && req.cookies[i].0 == name
                         && (forall j :: 0 <= j < i ==> req.cookies[j].0 != name)) ==> v == Some(req.cookies[i].1)
  {
    Url.Lookup(req.cookies, name)
  }

  /** How long a cookie lives: an absolute expiry some hours ahead, or a Max-Age in seconds. */
  datatype Lifetime = ExpiresAfterHours(hours: nat) | MaxAge(seconds: int)

  datatype Cookie = Cookie(name: string, value: string, path: string, lifetime: Lifetime)

  /**
    The Authorization header `Basic <base64(userPass)>`. The encoding is
    standard base64 and is not modelled; the header is identified by the
    text it encodes.
  */
  datatype Authorization = Basic(userPass: string)

  /** A POST to the provider's token endpoint. */
  datatype TokenRequest = TokenRequest(
    url: string,
    authorization: Authorization,
    contentType: string,
    accept: string,
    form: string)

  /** A value in the provider's JSON object: a string, or anything else. */
  datatype JsonValue = JString(s: string) | JOther

  /**
    The provider's response body: text json.Unmarshal rejects for a map,
    or an object's fields. A JSON `null` unmarshals without error to an
    empty map, so it is `Object(map[])`.
  */
  datatype Body = NotJson | Object(fields: map<string, JsonValue>)

  /**
    What `client.Do` returned for the token request:
    - `TransportError`: an error and a nil response (the endpoint unreachable,
      a refused connection, a timeout);
    - `RedirectsExhausted`: the one error that comes with a non-nil response,
      returned when the redirect policy stops (more than 10 redirects); that
      response's body is already closed, so reading it yields no bytes;
    - `Response`: no error, a status and a body.
  */
  datatype Upstream = TransportError | RedirectsExhausted | Response(status: int, body: Body)

  /** Why the runtime aborted a handler. */
  datatype Fault =
    | NilCookie              // reading Value of the nil cookie
    | NilResponse            // reading Body of the nil response
    | BadJson                // panic(err) after json.Unmarshal fails
    | NotAString(key: string) // data[key].(string) on a missing or non-string field

  datatype Effect =
    | SetCookie(cookie: Cookie)
    | SetHeader(name: string, value: string)
    | Post(request: TokenRequest)
    | Redirect(location: string, status: int)
    | Write(body: string)
    | Panic(fault: Fault)

  /** The answer every handler gives to a method other than GET. */
  const Forbidden: Effect := Redirect(AppOrigin, StatusForbidden)

  /** The string a field holds, if the type assertion `.(string)` would succeed. */
  function StringField(fields: map<string, JsonValue>, key: string): Option<string> {
    if key in fields && fields[key].JString? then Some(fields[key].s) else None
  }

  /**
    The token request both exchanges send: Basic credentials, a form body,
    JSON accepted. The provider splits the Basic credential at its first
    ':' (section 2 of RFC 7617, which forbids ':' in the user-id), so it
    recovers the client id and secret whenever the id has no ':'.
  */
  function TokenPost(config: Config, form: string): (req: TokenRequest)
    ensures req.url == TokenEndpoint && req.form == form
    ensures req.authorization == Basic(config.clientId + ":" + config.clientSecret)
    ensures req.contentType == "application/x-www-form-urlencoded" && req.accept == "application/json"
    ensures ':' !in config.clientId ==>
              Url.Cut(req.authorization.userPass, ':') == (config.clientId, config.clientSecret)
  {
    var userPass := config.clientId + ":" + config.clientSecret;
    var req := TokenRequest(
      TokenEndpoint,
      Basic(userPass),
      "application/x-www-form-urlencoded",
      "application/json",
      form);
    if ':' in config.clientId then req
    else
      Url.CutAtFirst(config.clientId, ':', config.clientSecret);
      assert userPass == config.clientId + [':'] + config.clientSecret;
      req
  }

  /** The trace contains a token request. */
  predicate Exchanges(trace: seq<Effect>) {
    exists i :: 0 <= i < |trace| && trace[i].Post?
  }

  /** The trace sets a cookie. */
  predicate SetsCookie(trace: seq<Effect>) {
    exists i :: 0 <= i < |trace| && trace[i].SetCookie?
  }

  /** The trace writes a response body. */
  predicate Writes(trace: seq<Effect>) {
    exists i :: 0 <= i < |trace| && trace[i].Write?
  }

  /** The trace is aborted by the runtime. */
  predicate Crashes(trace: seq<Effect>) {
    exists i :: 0 <= i < |trace| && trace[i].Panic?
  }

  /** The trace never dereferences a nil cookie or a nil response. */
  predicate NoNilDereference(trace: seq<Effect>) {
    forall i :: 0 <= i < |trace| && trace[i].Panic? ==> !trace[i].fault.NilCookie? && !trace[i].fault.NilResponse?
  }

  /** A panic, if any, is the last effect. */
  predicate PanicLast(trace: seq<Effect>) {
    forall i :: 0 <= i < |trace| - 1 ==> !trace[i].Panic?
  }
}

=== FILE: login.dfy ===
/**
  The login initiator: mint a state token, bind it to the browser with a
  cookie, and redirect to the provider's consent screen with an
  authorization request (section 4.1.1 of RFC 6749) that carries the same
  token as its `state` parameter.
*/
module Login {
  import opened Wrappers
  import opened Http
  import Url
  import StateToken

  /** The cookie that carries the state token: path "/", expiring a year (365 * 24 hours) ahead. */
  function StateCookie(state: string): Cookie {
    Cookie(StateKey, state, "/", ExpiresAfterHours(365 * 24))
  }

  /** The authorization request's query, concatenated without escaping. */
  function AuthorizeQuery(clientId: string, state: string): string {
    "response_type=code&client_id=" + clientId + "&scope=" + Scope
      + "&redirect_uri=" + RedirectUri + "&state=" + state
  }

  function AuthorizeUrl(clientId: string, state: string): string {
    AuthorizeEndpoint + "?" + AuthorizeQuery(clientId, state)
  }

  /** The parameters of the authorization request, in the order they are written. */
  function AuthorizeParams(clientId: string, state: string): seq<(string, string)> {
    [("response_type", "code"), ("client_id", clientId), ("scope", Scope),
     ("redirect_uri", RedirectUri), ("state", state)]
  }

  /**
    handleLogin once the state has been minted: on GET, set the state
    cookie, allow any origin, and redirect (302) to the authorization
    endpoint; otherwise only the forbidden redirect.
  */
  function Login(verb: string, clientId: string, state: string): (trace: seq<Effect>)
    ensures !Exchanges(trace) && !Writes(trace) && !Crashes(trace)
    ensures SetsCookie(trace) <==> verb == "GET"
    ensures verb == "GET" ==>
              && trace[0] == SetCookie(StateCookie(state))
              && (forall i :: 0 <= i < |trace| && trace[i].SetCookie? ==> i == 0)
              && trace[|trace| - 1] == Redirect(AuthorizeUrl(clientId, state), StatusFound)
  {
    if verb == "GET" then
      var trace := [ SetCookie(StateCookie(state)),
                     SetHeader("Access-Control-Allow-Origin", "*"),
                     Redirect(AuthorizeUrl(clientId, state), StatusFound) ];
      assert trace[0].SetCookie?;
      trace
    else
      [Forbidden]
  }

  /**
    handleLogin: mint a token from the first 16 draws, then answer as `Login`
    does with that token as the state.
  */
  method HandleLogin(verb: string, clientId: string, draws: seq<int>) returns (trace: seq<Effect>)
    requires verb == "GET" ==> StateToken.StateLength <= |draws|
    requires StateToken.AllDraws(draws)
    ensures verb != "GET" ==> trace == [Forbidden]
    ensures verb == "GET" ==> trace == Login(verb, clientId, StateToken.Token(draws[..StateToken.StateLength]))
  {
    if verb == "GET" {
      var state := StateToken.GenerateRandomString(StateToken.StateLength, draws);
      trace := Login(verb, clientId, state);
    } else {
      trace := Login(verb, clientId, "");
    }
  }

  lemma AuthorizeQueryEncodes(clientId: string, state: string)
    ensures AuthorizeQuery(clientId, state) == Url.EncodeQuery(AuthorizeParams(clientId, state))
  {
    Url.EncodeFive("response_type", "code", "client_id", clientId, "scope", Scope,
                   "redirect_uri", RedirectUri, "state", state);
    assert "response_type=code&client_id=" == Url.Param(("response_type", "code")) + "&" + "client_id" + "=";
    assert "&scope=" == "&" + "scope" + "=";
    assert "&redirect_uri=" == "&" + "redirect_uri" + "=";
    assert "&state=" == "&" + "state" + "=";
  }

  /**
    The redirect of a GET login is a 302 to the authorize endpoint with the
    built query after the first '?'; the query reads back as exactly the
    five parameters of section 4.1.1 of RFC 6749 when the client id and the
    state contain no '&'.
  */
  lemma {:induction false} LoginAuthorizationRequest(clientId: string, state: string)
    ensures Login("GET", clientId, state)[2] == Redirect(AuthorizeUrl(clientId, state), StatusFound)
    ensures Url.Cut(AuthorizeUrl(clientId, state), '?') == (AuthorizeEndpoint, AuthorizeQuery(clientId, state))
    ensures '&' !in clientId && '&' !in state ==>
              Url.ParseQuery(AuthorizeQuery(clientId, state)) == AuthorizeParams(clientId, state)
  {
    var query := AuthorizeQuery(clientId, state);
    assert '?' !in AuthorizeEndpoint;
    Url.CutAtFirst(AuthorizeEndpoint, '?', query);
    if '&' !in clientId && '&' !in state {
      AuthorizeQueryEncodes(clientId, state);
      AuthorizeParamsPlain(clientId, state);
      Url.ParseEncodeQuery(AuthorizeParams(clientId, state));
    }
  }

  lemma AuthorizeParamsPlain(clientId: string, state: string)
    requires '&' !in clientId && '&' !in state
    ensures Url.Plain(AuthorizeParams(clientId, state))
  {
    var ps := AuthorizeParams(clientId, state);
    assert Url.PlainPair(ps[0]);
    assert Url.PlainPair(ps[1]);
    assert Url.PlainPair(ps[2]) by {
      assert '&' !in Scope;
    }
    assert Url.PlainPair(ps[3]) by {
      assert '&' !in RedirectUri;
    }
    assert Url.PlainPair(ps[4]);
  }

  /** Among the parameters of the authorization request, `state` is read as the minted token. */
  lemma LookupState(clientId: string, state: string)
    ensures Url.Lookup(AuthorizeParams(clientId, state), "state") == Some(state)
  {
    var ps := AuthorizeParams(clientId, state);
    assert ps[0].0 != "state" && ps[1].0 != "state" && ps[2].0 != "state" && ps[3].0 != "state";
    assert ps[4] == ("state", state);
  }

  /**
    A GET login sets exactly one cookie, the state cookie with path "/",
    and its value is the `state` a recipient of the redirect reads from it.
  */
  lemma {:induction false} LoginBindsState(clientId: string, state: string)
    requires '&' !in clientId && '&' !in state
    ensures var trace := Login("GET", clientId, state);
      && (forall i :: 0 <= i < |trace| && trace[i].SetCookie? ==> i == 0)
      && trace[0].SetCookie?
      && trace[0].cookie.name == StateKey
      && trace[0].cookie.path == "/"
      && trace[2].Redirect?
      && Url.Cut(trace[2].location, '?').0 == AuthorizeEndpoint
      && Url.Lookup(Url.ParseQuery(Url.Cut(trace[2].location, '?').1), "state") == Some(trace[0].cookie.value)
  {
    LoginAuthorizationRequest(clientId, state);
    LookupState(clientId, state);
    assert |Login("GET", clientId, state)| == 3;
  }

  /**
    The handler itself binds its minted state: a GET login's state cookie
    holds exactly the `state` the redirect carries, for any client id
    without '&' (a minted token never contains one).
  */
  lemma {:induction false} MintedStateBinds(clientId: string, draws: seq<int>)
    requires '&' !in clientId
    requires StateToken.AllDraws(draws) && StateToken.StateLength <= |draws|
    ensures var trace := Login("GET", clientId, StateToken.Token(draws[..StateToken.StateLength]));
      && trace[0] == SetCookie(StateCookie(StateToken.Token(draws[..StateToken.StateLength])))
      && Url.Lookup(Url.ParseQuery(Url.Cut(trace[|trace| - 1].location, '?').1), "state") == Some(trace[0].cookie.value)
  {
    var state := StateToken.Token(draws[..StateToken.StateLength]);
    StateToken.TokenIsPlain(draws[..StateToken.StateLength]);
    LoginBindsState(clientId, state);
    assert |Login("GET", clientId, state)| == 3;
  }
}

=== FILE: refresh.dfy ===
/**
  The refresh exchanger: trade a refresh token for a new access token at
  the token endpoint (section 6 of RFC 6749) and write the access token
  back in a JSON-shaped body.

  The trace follows the code as written: only a 200 reply writes anything,
  and the deferred close of the response body dereferences the nil
  response left by a transport error. The response that comes with a
  stopped redirect chain is not nil, so closing it is safe.
*/
module Refresh {
  import opened Wrappers
  import opened Http
  import Url

  /** The form body of the refresh exchange, concatenated without escaping. */
  function RefreshForm(refreshToken: string): string {
    "grant_type=refresh_token&refresh_token=" + refreshToken
  }

  function RefreshParams(refreshToken: string): seq<(string, string)> {
    [("grant_type", "refresh_token"), ("refresh_token", refreshToken)]
  }

  const AccessPrefix: string := "{access_token:"

  /** The body written back: `{access_token:` + token + `}` (JSON-shaped, unquoted). */
  function AccessBody(access: string): string {
    AccessPrefix + access + "}"
  }

  /** The token inside a body of that shape, if it has that shape. */
  function ReadAccessBody(body: string): (access: Option<string>)
    ensures access.Some? ==> AccessBody(access.value) == body
  {
    if |AccessPrefix| + 1 <= |body| && body[..|AccessPrefix|] == AccessPrefix && body[|body| - 1] == '}' then
      var access := body[|AccessPrefix|..|body| - 1];
      assert body == body[..|AccessPrefix|] + access + [body[|body| - 1]];
      Some(access)
    else
      None
  }

  /** Reading a 200 reply: unmarshal it, assert the access token is a string, write it back. */
  function ReadAccess(body: Body): (trace: seq<Effect>)
    ensures |trace| == 1
    ensures trace[0].Write? <==> body.Object? && StringField(body.fields, "access_token").Some?
    ensures trace[0].Write? ==> trace[0] == Write(AccessBody(body.fields["access_token"].s))
    ensures !trace[0].Write? ==> trace[0].Panic?
    ensures body.NotJson? ==> trace[0] == Panic(BadJson)
  {
    match body
    case NotJson => [Panic(BadJson)]
    case Object(fields) =>
      match StringField(fields, "access_token")
      case None => [Panic(NotAString("access_token"))]
      case Some(access) => [Write(AccessBody(access))]
  }

  /** handleRefresh, given the reply the token endpoint would send to its request. */
  function Refresh(config: Config, req: Request, upstream: Upstream): (trace: seq<Effect>)
    ensures Writes(trace) ==> upstream.Response? && upstream.status == StatusOK
    ensures !SetsCookie(trace)
    ensures PanicLast(trace)
  {
    if req.verb != "GET" then [Forbidden]
    else
      var request := Post(TokenPost(config, RefreshForm(QueryGet(req, "refresh_token"))));
      match upstream
      case TransportError => [request, Panic(NilResponse)]
      case RedirectsExhausted => [request]
      case Response(status, body) =>
        if status == StatusOK then [request] + ReadAccess(body) else [request]
  }

  lemma RefreshFormEncodes(refreshToken: string)
    ensures RefreshForm(refreshToken) == Url.EncodeQuery(RefreshParams(refreshToken))
  {
    Url.EncodeTwo("grant_type", "refresh_token", "refresh_token", refreshToken);
    assert "grant_type=refresh_token&refresh_token=" == Url.Param(("grant_type", "refresh_token")) + "&" + "refresh_token" + "=";
  }

  /**
    A GET refresh sends one token request first, whose form reads back as
    grant_type=refresh_token and the caller's refresh token (section 6 of
    RFC 6749) when the token has no '&'.
  */
  lemma {:induction false} RefreshRequest(config: Config, req: Request, upstream: Upstream)
    requires req.verb == "GET"
    ensures var trace := Refresh(config, req, upstream);
      && |trace| >= 1
      && trace[0] == Post(TokenPost(config, RefreshForm(QueryGet(req, "refresh_token"))))
      && (forall i :: 1 <= i < |trace| ==> !trace[i].Post?)
    ensures '&' !in QueryGet(req, "refresh_token") ==>
              Url.ParseQuery(RefreshForm(QueryGet(req, "refresh_token"))) == RefreshParams(QueryGet(req, "refresh_token"))
  {
    var token := QueryGet(req, "refresh_token");
    if '&' !in token {
      RefreshFormReadsBack(token);
    }
  }

  lemma RefreshFormReadsBack(refreshToken: string)
    requires '&' !in refreshToken
    ensures Url.ParseQuery(RefreshForm(refreshToken)) == RefreshParams(refreshToken)
  {
    RefreshFormEncodes(refreshToken);
    Url.ParseEncodeQuery(RefreshParams(refreshToken));
  }

  /** A 200 reply with a string access token writes exactly the body the caller reads the token from. */
  lemma {:induction false} RefreshSuccess(config: Config, req: Request, access: string, fields: map<string, JsonValue>)
    requires req.verb == "GET"
    requires "access_token" in fields && fields["access_token"] == JString(access)
    ensures var trace := Refresh(config, req, Response(StatusOK, Object(fields)));
      && |trace| == 2
      && trace[1] == Write(AccessBody(access))
      && ReadAccessBody(trace[1].body) == Some(access)
  {
    AccessBodyReadsBack(access);
  }

  lemma AccessBodyReadsBack(access: string)
    ensures ReadAccessBody(AccessBody(access)) == Some(access)
  {
    var body := AccessBody(access);
    assert body[..|AccessPrefix|] == AccessPrefix;
    assert body[|AccessPrefix|..|body| - 1] == access;
  }

  /** Any reply other than a 200 writes nothing: no body, no redirect. */
  lemma RefreshFailureIsSilent(config: Config, req: Request, upstream: Upstream)
    requires req.verb == "GET"
    requires !(upstream.Response? && upstream.status == StatusOK)
    ensures var trace := Refresh(config, req, upstream);
      forall i :: 0 <= i < |trace| ==> !trace[i].Write? && !trace[i].Redirect?
  {
  }
}

=== FILE: relay.dfy ===
/**
  Properties shared by the three endpoints: /api/login, /callback and
  /api/refresh_token.
*/
module Relay {
  import opened Http
  import Login
  import Callback
  import Refresh

  /**
    Any method other than GET gets the same single answer from every
    endpoint: a 403 redirect to the application origin. No cookie is set,
    no token request is made and nothing crashes, whatever the request
    carries and whatever the provider would have replied.
  */
  lemma MethodGate(config: Config, req: Request, state: string, upstream: Upstream)
    requires req.verb != "GET"
    ensures Login.Login(req.verb, config.clientId, state) == [Redirect("http://localhost:8081", 403)]
    ensures Callback.Callback(config, req, upstream) == [Redirect("http://localhost:8081", 403)]
    ensures Refresh.Refresh(config, req, upstream) == [Redirect("http://localhost:8081", 403)]
  {
  }
}

=== FILE: state_token.dfy ===
/**
  The anti-forgery state token generator.

  Each character is chosen by one draw of the pseudo-random source: an
  integer k with 0 <= k < 100, turned into the fraction k/100 and scaled
  to an index into the 62-character alphabet by flooring k/100 * 62.
  The draws are taken as given: seeding, uniformity and unpredictability
  are properties of the random source, not of this code.
*/
module StateToken {

  /** The alphabet tokens are drawn from: upper-case letters, lower-case letters, digits. */
  const Possible: string := "ABCDEFGHIJKLMNOPQRSTUVWXYZ" + "abcdefghijklmnopqrstuvwxyz" + "0123456789"

  predicate Alphanumeric(c: char) {
    'A' <= c <= 'Z' || 'a' <= c <= 'z' || '0' <= c <= '9'
  }

  /** The length of the token a login mints. */
  const StateLength: nat := 16

  /** A value the source can return: rand.Intn(100). */
  predicate IsDraw(k: int) {
    0 <= k < 100
  }

  predicate AllDraws(draws: seq<int>) {
    forall i :: 0 <= i < |draws| ==> IsDraw(draws[i])
  }

  /** The index a draw selects, floor(k/100 * 62) in integer arithmetic. */
  function RandomIndex(k: int): (i: int)
    requires IsDraw(k)
    ensures 0 <= i < |Possible|
  {
    (k * |Possible|) / 100
  }

  /** The integer index agrees with the exact real-valued floor the source computes. */
  lemma RandomIndexIsFloor(k: int)
    requires IsDraw(k)
    ensures RandomIndex(k) == ((k as real / 100.0) * (|Possible| as real)).Floor
  {
    var q := RandomIndex(k);
    var x := (k as real / 100.0) * 62.0;
    assert |Possible| == 62;
    assert 100 * q <= k * 62 < 100 * q + 100;
    assert x == (k * 62) as real / 100.0;
    assert (100 * q) as real <= (k * 62) as real < (100 * q + 100) as real;
    assert q as real <= x < q as real + 1.0;
  }

  /** The token a sequence of draws produces, one character per draw, in order. */
  function Token(draws: seq<int>): (t: string)
    requires AllDraws(draws)
    ensures |t| == |draws|
    decreases |draws|
  {
    if |draws| == 0 then ""
    else
      var last := |draws| - 1;
      Token(draws[..last]) + [Possible[RandomIndex(draws[last])]]
  }

  /** Character i of a token is the alphabet entry the i-th draw selects. */
  lemma {:induction false} TokenChar(draws: seq<int>, i: int)
    requires AllDraws(draws)
    requires 0 <= i < |draws|
    ensures Token(draws)[i] == Possible[RandomIndex(draws[i])]
    decreases |draws|
  {
    var last := |draws| - 1;
    var prefix := Token(draws[..last]);
    assert Token(draws) == prefix + [Possible[RandomIndex(draws[last])]];
    if i < last {
      TokenChar(draws[..last], i);
      assert draws[..last][i] == draws[i];
      assert Token(draws)[i] == prefix[i];
    }
  }

  /**
    generateRandomString: `length` characters, one per draw, agreeing with
    the reference `Token` of the draws it used (so character i comes from
    draw i, by `TokenChar`). A negative length runs the loop zero times and
    gives the empty string.
  */
  method GenerateRandomString(length: int, draws: seq<int>) returns (text: string)
    requires length <= |draws|
    requires AllDraws(draws)
    ensures |text| == if length < 0 then 0 else length
    ensures text == Token(draws[..|text|])
  {
    text := "";
    var i := 0;
    while i < length
      invariant 0 <= i <= |draws|
      invariant length >= 0 ==> i <= length
      invariant length < 0 ==> i == 0
      invariant |text| == i
      invariant text == Token(draws[..i])
    {
      var randomIndex := RandomIndex(draws[i]);
      text := text + [Possible[randomIndex]];
      assert draws[..i + 1][..i] == draws[..i];
      i := i + 1;
    }
  }

  /** Every character of the alphabet is a letter or a digit. */
  lemma PossibleIsAlphanumeric()
    ensures |Possible| == 62
    ensures forall i :: 0 <= i < |Possible| ==> Alphanumeric(Possible[i])
  {
    var upper, lower, digits := "ABCDEFGHIJKLMNOPQRSTUVWXYZ", "abcdefghijklmnopqrstuvwxyz", "0123456789";
    assert forall i :: 0 <= i < |upper| ==> Alphanumeric(upper[i]);
    assert forall i :: 0 <= i < |lower| ==> Alphanumeric(lower[i]);
    assert forall i :: 0 <= i < |digits| ==> Alphanumeric(digits[i]);
  }

  /** Every character of a token is in the alphabet. */
  lemma {:induction false} TokenInAlphabet(draws: seq<int>)
    requires AllDraws(draws)
    ensures forall i :: 0 <= i < |Token(draws)| ==> Token(draws)[i] in Possible
  {
    forall i | 0 <= i < |Token(draws)|
      ensures Token(draws)[i] in Possible
    {
      TokenChar(draws, i);
    }
  }

  /** Every token is alphanumeric, so it carries none of the delimiters of a query string. */
  lemma {:induction false} TokenIsPlain(draws: seq<int>)
    requires AllDraws(draws)
    ensures forall i :: 0 <= i < |Token(draws)| ==> Alphanumeric(Token(draws)[i])
    ensures '&' !in Token(draws) && '=' !in Token(draws) && '#' !in Token(draws)
  {
    PossibleIsAlphanumeric();
    forall i | 0 <= i < |Token(draws)|
      ensures Alphanumeric(Token(draws)[i])
    {
      TokenChar(draws, i);
    }
  }
}

=== FILE: url.dfy ===
/**
  Reading and writing `key=value&key=value` strings.

  The handlers build their query strings, form bodies and URL fragments by
  plain concatenation, without escaping. This module gives those strings a
  reader (split on '&', cut each piece at its first '='), and a writer
  (`EncodeQuery`) with the round-trip lemma between them, so that what each
  handler sends can be stated as the parameters a recipient reads back.
  The reader does no percent-decoding: every value it is applied to here
  is compared as the raw text that was concatenated.
*/
module Url {
  import opened Wrappers

  /** The parts joined with one `sep` between neighbours. */
  function Join(parts: seq<string>, sep: char): string
    decreases |parts|
  {
    if |parts| == 0 then ""
    else if |parts| == 1 then parts[0]
    else parts[0] + [sep] + Join(parts[1..], sep)
  }

  /** The maximal `sep`-free pieces of `s`, in order; one empty piece for the empty string. */
  function Split(s: string, sep: char): (parts: seq<string>)
    ensures |parts| >= 1
    ensures Join(parts, sep) == s
    ensures forall i :: 0 <= i < |parts| ==> sep !in parts[i]
    decreases |s|
  {
    if |s| == 0 then [""]
    else
      var rest := Split(s[1..], sep);
      if s[0] == sep then
        assert s == [sep] + s[1..];
        [""] + rest
      else
        var parts := [[s[0]] + rest[0]] + rest[1..];
        assert s == [s[0]] + s[1..];
        assert |rest| > 1 ==> Join(rest, sep) == rest[0] + [sep] + Join(rest[1..], sep);
        assert parts[1..] == rest[1..];
        parts
  }

  /** `s` divided at its first `sep`; the whole of `s` and an empty rest when `sep` does not occur. */
  function Cut(s: string, sep: char): (kv: (string, string))
    ensures sep !in kv.0
    ensures sep in s ==> kv.0 + [sep] + kv.1 == s
    ensures sep !in s ==> kv == (s, "")
    decreases |s|
  {
    if |s| == 0 then ("", "")
    else if s[0] == sep then ("", s[1..])
    else
      var kv := Cut(s[1..], sep);
      assert s == [s[0]] + s[1..];
      ([s[0]] + kv.0, kv.1)
  }

  /** The `key=value` pairs of a query string, in the order they occur. */
  function ParseQuery(q: string): (pairs: seq<(string, string)>)
    ensures |pairs| == |Split(q, '&')|
  {
    var parts := Split(q, '&');
    seq(|parts|, i requires 0 <= i < |parts| => Cut(parts[i], '='))
  }

  /** The first value bound to `key`, if any. */
  function Lookup(pairs: seq<(string, string)>, key: string): (v: Option<string>)
    ensures v.None? <==> forall i :: 0 <= i < |pairs| ==> pairs[i].0 != key
    ensures v.Some? ==> exists i :: 0 <= i < |pairs| && pairs[i] == (key, v.value)
                                    && forall j :: 0 <= j < i ==> pairs[j].0 != key
    decreases |pairs|
  {
    if |pairs| == 0 then None
    else if pairs[0].0 == key then Some(pairs[0].1)
    else
      var v := Lookup(pairs[1..], key);
      assert forall i :: 1 <= i < |pairs| ==> pairs[i] == pairs[1..][i - 1];
      if v.Some? then
        var i :| 0 <= i < |pairs[1..]| && pairs[1..][i] == (key, v.value)
                 && forall j :: 0 <= j < i ==> pairs[1..][j].0 != key;
        assert pairs[i + 1] == (key, v.value);
        v
      else
        v
  }

  /** One `key=value` parameter. */
  function Param(kv: (string, string)): string {
    kv.0 + "=" + kv.1
  }

  /** The pairs written as `k1=v1&k2=v2&...`. */
  function EncodeQuery(pairs: seq<(string, string)>): string
    decreases |pairs|
  {
    if |pairs| == 0 then ""
    else if |pairs| == 1 then Param(pairs[0])
    else Param(pairs[0]) + "&" + EncodeQuery(pairs[1..])
  }

  /** Pairs that survive being written unescaped: keys free of '&' and '=', values free of '&'. */
  predicate Plain(pairs: seq<(string, string)>) {
    forall i :: 0 <= i < |pairs| ==> PlainPair(pairs[i])
  }

  predicate PlainPair(kv: (string, string)) {
    '&' !in kv.0 && '=' !in kv.0 && '&' !in kv.1
  }

  /** Writing one more leading pair prefixes its parameter and an '&'. */
  lemma EncodeQueryCons(kv: (string, string), rest: seq<(string, string)>)
    requires |rest| >= 1
    ensures EncodeQuery([kv] + rest) == Param(kv) + "&" + EncodeQuery(rest)
  {
    assert ([kv] + rest)[1..] == rest;
  }

  /** Two pairs written out, grouped as the handlers concatenate them. */
  lemma EncodeTwo(k1: string, v1: string, k2: string, v2: string)
    ensures EncodeQuery([(k1, v1), (k2, v2)]) == (Param((k1, v1)) + "&" + k2 + "=") + v2
    ensures EncodeQuery([(k1, v1), (k2, v2)]) == (k1 + "=") + v1 + ("&" + k2 + "=") + v2
  {
    EncodeQueryCons((k1, v1), [(k2, v2)]);
    assert [(k1, v1), (k2, v2)] == [(k1, v1)] + [(k2, v2)];
  }

  /** Three pairs written out, grouped as the handlers concatenate them. */
  lemma EncodeThree(k1: string, v1: string, k2: string, v2: string, k3: string, v3: string)
    ensures EncodeQuery([(k1, v1), (k2, v2), (k3, v3)])
         == (k1 + "=") + v1 + ("&" + k2 + "=") + v2 + (("&" + k3 + "=") + v3)
  {
    EncodeTwo(k2, v2, k3, v3);
    EncodeQueryCons((k1, v1), [(k2, v2), (k3, v3)]);
    assert [(k1, v1), (k2, v2), (k3, v3)] == [(k1, v1)] + [(k2, v2), (k3, v3)];
  }

  /** Five pairs written out, grouped as the handlers concatenate them. */
  lemma EncodeFive(k1: string, v1: string, k2: string, v2: string, k3: string, v3: string,
                   k4: string, v4: string, k5: string, v5: string)
    ensures EncodeQuery([(k1, v1), (k2, v2), (k3, v3), (k4, v4), (k5, v5)])
         == (Param((k1, v1)) + "&" + k2 + "=") + v2 + ("&" + k3 + "=") + v3
            + ("&" + k4 + "=") + v4 + ("&" + k5 + "=") + v5
  {
    var ps := [(k1, v1), (k2, v2), (k3, v3), (k4, v4), (k5, v5)];
    EncodeTwo(k4, v4, k5, v5);
    EncodeQueryCons((k3, v3), ps[3..]);
    assert ps[2..] == [(k3, v3)] + ps[3..];
    EncodeQueryCons((k2, v2), ps[2..]);
    assert ps[1..] == [(k2, v2)] + ps[2..];
    EncodeQueryCons((k1, v1), ps[1..]);
    assert ps == [(k1, v1)] + ps[1..];
  }

  lemma {:induction false} SplitNoSep(s: string, sep: char)
    requires sep !in s
    ensures Split(s, sep) == [s]
    decreases |s|
  {
    if |s| > 0 {
      SplitNoSep(s[1..], sep);
      assert s == [s[0]] + s[1..];
    }
  }

  lemma {:induction false} SplitConcat(a: string, sep: char, b: string)
    ensures Split(a + [sep] + b, sep) == Split(a, sep) + Split(b, sep)
    decreases |a|
  {
    var s := a + [sep] + b;
    if |a| == 0 {
      assert s[1..] == b;
    } else {
      assert s[1..] == a[1..] + [sep] + b;
      SplitConcat(a[1..], sep, b);
    }
  }

  lemma {:induction false} CutAtFirst(k: string, sep: char, v: string)
    requires sep !in k
    ensures Cut(k + [sep] + v, sep) == (k, v)
    decreases |k|
  {
    var s := k + [sep] + v;
    if |k| == 0 {
      assert s[1..] == v;
    } else {
      assert s[1..] == k[1..] + [sep] + v;
      CutAtFirst(k[1..], sep, v);
      assert k == [k[0]] + k[1..];
    }
  }

  /** The '&'-pieces of an encoded query are exactly its parameters. */
  lemma {:induction false} SplitEncoded(pairs: seq<(string, string)>)
    requires |pairs| >= 1
    requires Plain(pairs)
    ensures Split(EncodeQuery(pairs), '&') == seq(|pairs|, i requires 0 <= i < |pairs| => Param(pairs[i]))
    decreases |pairs|
  {
    var params := seq(|pairs|, i requires 0 <= i < |pairs| => Param(pairs[i]));
    assert '&' !in Param(pairs[0]) by {
      assert PlainPair(pairs[0]);
    }
    SplitNoSep(Param(pairs[0]), '&');
    if |pairs| > 1 {
      assert Plain(pairs[1..]) by {
        forall i | 0 <= i < |pairs[1..]|
          ensures PlainPair(pairs[1..][i])
        {
          assert pairs[1..][i] == pairs[i + 1];
        }
      }
      SplitEncoded(pairs[1..]);
      SplitConcat(Param(pairs[0]), '&', EncodeQuery(pairs[1..]));
      assert EncodeQuery(pairs) == Param(pairs[0]) + ['&'] + EncodeQuery(pairs[1..]);
      assert params == [Param(pairs[0])] + seq(|pairs[1..]|, i requires 0 <= i < |pairs[1..]| => Param(pairs[1..][i]));
    }
  }

  /** Reading back an encoded query yields the pairs that were written. */
  lemma {:induction false} ParseEncodeQuery(pairs: seq<(string, string)>)
    requires |pairs| >= 1
    requires Plain(pairs)
    ensures ParseQuery(EncodeQuery(pairs)) == pairs
  {
    SplitEncoded(pairs);
    var parsed := ParseQuery(EncodeQuery(pairs));
    forall i | 0 <= i < |pairs|
      ensures parsed[i] == pairs[i]
    {
      assert PlainPair(pairs[i]);
      CutAtFirst(pairs[i].0, '=', pairs[i].1);
    }
  }
}

=== FILE: wrappers.dfy ===
/** Optional values, standing in for Go's nil results and "comma ok" lookups. */
module Wrappers {

  datatype Option<+T> = None | Some(value: T) {

    /** The carried value, or `default` when there is none. */
    function GetOr(default: T): T {
      match this
      case Some(v) => v
      case None => default
    }
  }
}
